=== FILE: README.md ===
# BoggetDots NFC loyalty card — a verified model

The app reads a membership card from an NFC tag, lets a point-of-sale screen
add points ("eDots") for a product or take them off for a purchase, and
writes the new balance back to the tag, issuing a database update alongside.
This project models the part of it that is logic rather than Android plumbing:

- the four renderings of the tag's serial number (`toHex`, `toReversedHex`,
  `toDec`, `toReversedDec` in MainActivity.kt), as methods with the source's
  loops, proved against specification functions;
- the card record layout: five NDEF text records in the first message, each
  field the record's payload minus a 3-byte header, the tamper flag read with
  `toBoolean()` and the balance with `toInt()`; one `DecodeCard` for the three
  copies of that code;
- the earn rule (always add the price) and the purchase rule (subtract only
  when the balance covers the price), in Kotlin `Int` arithmetic;
- the minimal write-back: the original records with only record 4 replaced by
  a text record of the new balance, and `writeUpdatedCardToTag`'s
  success/failure outcomes;
- the two transaction screens as classes whose `selectedProduct` field drives
  `processNfcTag`, with a ghost log of the database updates issued and tag
  writes attempted; `updateNfcTag` as an in-place update of a record array.

Modules: `Wrappers` (Option, Result), `Jvm` (Kotlin integer widths and the JDK
conversions used), `TagId`, `CardModel`, `Ndef`, `Transactions`, `TagIo`
(the tag, the shared write-back, outcomes), `MainScreen`, `EarnScreen`,
`BoggetDotsScreen`.

The model follows the code, including where it behaves in ways a reader might not expect:

- the database update is keyed by the card's `boggetID` field, not by the
  tag's hardware id, and it is issued before the tag write whether or not the
  write succeeds;
- the tamper flag never fails to parse: any text other than "true" (in any
  case) is `false`;
- a negative balance decodes without complaint, and an earn past the top of
  the `Int` range wraps to a negative balance (`Transactions.EarnOverflowWraps`);
- a payload shorter than 3 bytes or a balance that is not an `Int` throws out
  of `processNfcTag`/`resolveIntent` uncaught; the model returns it as a
  `DecodeError`;
- decoding what was written gives back the new balance only when the device's
  language code is two bytes long: the decoder skips a fixed 3 bytes instead of
  reading the language length from the status byte
  (`Ndef.BalanceRoundTrip`). A longer code puts a letter in front of the
  digits and the next read fails (`Ndef.LongLanguageBreaksCard`); a shorter
  one (an empty or one-letter code) silently drops leading digits, so the
  next read succeeds with a smaller balance (`Ndef.ShortLanguageCorruptsBalance`).

Earn is modelled with `Int` wrap-around rather than assuming it never
overflows; its no-overflow behaviour is stated as a case of its contract.

## Model

| member | source | states |
|---|---|---|
| `Jvm.ToUnsigned` | app/src/main/java/com/ganlouis/nfc/MainActivity.kt:254 | `b.toInt() and 0xff` is in 0..255, has the same low 8 bits as the signed byte, and is the byte itself when non-negative |
| `Jvm.WrapInt` | app/src/main/java/com/ganlouis/nfc/EarnActivity.kt:121 | Kotlin `Int` arithmetic gives the exact result whenever it is inside the `Int` range |
| `Jvm.WrapLong` | app/src/main/java/com/ganlouis/nfc/MainActivity.kt:282-283 | Kotlin `Long` arithmetic gives the exact result whenever it is inside the `Long` range |
| `Jvm.WrapIntAddLeft` | app/src/main/java/com/ganlouis/nfc/EarnActivity.kt:121 | wrapping an intermediate `Int` sum changes nothing about the final wrapped sum |
| `Jvm.WrapLongAdd` | app/src/main/java/com/ganlouis/nfc/MainActivity.kt:282 | `result += ...` in `Long`s equals the wrapped exact sum |
| `Jvm.WrapLongMul` | app/src/main/java/com/ganlouis/nfc/MainActivity.kt:282-283 | `value * factor` with a wrapped factor equals the wrapped exact product |
| `Jvm.HexString` | app/src/main/java/com/ganlouis/nfc/MainActivity.kt:256 | `Integer.toHexString` yields at least one lower-case hex digit, and exactly one iff the value is below 16 |
| `Jvm.NatToString` | app/src/main/java/com/ganlouis/nfc/EarnActivity.kt:144 | the decimal digits of a natural number, with no leading zeros: the first is '0' only for 0 |
| `Jvm.IntToString` | app/src/main/java/com/ganlouis/nfc/EarnActivity.kt:144 | `edots.toString()` is non-empty, made of digits and '-', and starts with '-' iff the balance is negative |
| `Jvm.ParseInt` | app/src/main/java/com/ganlouis/nfc/MainActivity.kt:140 | `toInt()` succeeds only on non-empty text; a leading '-' gives a value at most 0, anything else a value at least 0; the rejected texts and the parsed values, for unsigned, '+' and '-' forms, are the lemmas below |
| `Jvm.ParseIntRejectsNonDigit` | app/src/main/java/com/ganlouis/nfc/MainActivity.kt:140 | any non-digit after the first character ("12a", "1 ") makes `toInt()` throw |
| `Jvm.ParseIntRejectsLoneSign` | app/src/main/java/com/ganlouis/nfc/MainActivity.kt:140 | "-" and "+" on their own make `toInt()` throw |
| `Jvm.ParseIntOfDigits` | app/src/main/java/com/ganlouis/nfc/MainActivity.kt:140 | unsigned digits up to `Int.MAX_VALUE` parse to their decimal value, leading zeros allowed |
| `Jvm.ParseIntOfNegativeDigits` | app/src/main/java/com/ganlouis/nfc/MainActivity.kt:140 | '-' then digits up to 2^31 parse to the negated value, `Int.MIN_VALUE` included |
| `Jvm.ParseIntRejectsOutOfRange` | app/src/main/java/com/ganlouis/nfc/MainActivity.kt:140 | unsigned digits above `Int.MAX_VALUE` make `toInt()` throw instead of wrapping |
| `Jvm.ParseIntOfPlusDigits` | app/src/main/java/com/ganlouis/nfc/MainActivity.kt:140 | '+' then digits up to `Int.MAX_VALUE` parse to their value |
| `Jvm.ParseIntRejectsSignedOutOfRange` | app/src/main/java/com/ganlouis/nfc/MainActivity.kt:140 | '-' then digits above 2^31, or '+' then digits above `Int.MAX_VALUE`, make `toInt()` throw |
| `Jvm.ParseIntRejectsNonNumericStart` | app/src/main/java/com/ganlouis/nfc/MainActivity.kt:140 | text starting with neither a sign nor a digit makes `toInt()` throw |
| `Jvm.DigitsValueOfNatToString` | app/src/main/java/com/ganlouis/nfc/EarnActivity.kt:144 | the digits printed for n read back as n |
| `Jvm.ParseIntToString` | app/src/main/java/com/ganlouis/nfc/EarnActivity.kt:144 | `toInt()` of `toString()` gives back every `Int`, negative ones and `Int.MIN_VALUE` included |
| `Jvm.ToBoolean` | app/src/main/java/com/ganlouis/nfc/MainActivity.kt:139 | `toBoolean()` is true iff the text is "true" ignoring case (so it has 4 characters); every other text gives false, not an error |
| `TagId.HexPair` | app/src/main/java/com/ganlouis/nfc/MainActivity.kt:254-256 | each byte becomes exactly two lower-case hex digits, high nibble then low nibble, '0'-padded below 0x10 |
| `TagId.HexPairValue` | app/src/main/java/com/ganlouis/nfc/MainActivity.kt:270-272 | reading the two digits back as hex gives the unsigned byte |
| `TagId.HexPairInjective` | app/src/main/java/com/ganlouis/nfc/MainActivity.kt:270-272 | different bytes give different pairs |
| `TagId.JoinedLength` | app/src/main/java/com/ganlouis/nfc/MainActivity.kt:264-275 | n two-character groups joined by a separator are 3n-1 characters long, and "" for n = 0 |
| `TagId.JoinedAt` | app/src/main/java/com/ganlouis/nfc/MainActivity.kt:264-275 | group k sits at offsets 3k, 3k+1 and is followed by the separator unless it is the last |
| `TagId.ColonHexShape` | app/src/main/java/com/ganlouis/nfc/MainActivity.kt:264-275 | `toReversedHex`: 3n-1 characters, byte k's digits at 3k and 3k+1 in array order, ':' between pairs |
| `TagId.SpaceHexShape` | app/src/main/java/com/ganlouis/nfc/MainActivity.kt:251-262 | `toHex`: 3n-1 characters, byte n-1-k's digits at 3k and 3k+1, ' ' between pairs, no trailing separator |
| `TagId.SpaceHexStep` | app/src/main/java/com/ganlouis/nfc/MainActivity.kt:253-259 | one more byte to the left adds a separator and its pair at the right end |
| `TagId.JoinedReplace` | app/src/main/java/com/ganlouis/nfc/MainActivity.kt:251-275 | for hex groups, replacing ':' by ' ' in the ':'-joined text gives the ' '-joined text |
| `TagId.SpaceHexIsColonHexOfReverse` | app/src/main/java/com/ganlouis/nfc/MainActivity.kt:251-275 | `toHex(b)` equals `toReversedHex(reverse(b))` with ':' replaced by ' ' |
| `TagId.ToReversedHex` | app/src/main/java/com/ganlouis/nfc/MainActivity.kt:264-275 | the loop builds the pairs of the bytes in array order joined by ':' |
| `TagId.ToHex` | app/src/main/java/com/ganlouis/nfc/MainActivity.kt:251-262 | the loop builds the pairs of the bytes in reverse array order joined by ' ' |
| `TagId.LittleEndianBound` | app/src/main/java/com/ganlouis/nfc/MainActivity.kt:277-286 | an n-byte little-endian value lies in [0, 256^n) |
| `TagId.BigEndianIsReversedLittleEndian` | app/src/main/java/com/ganlouis/nfc/MainActivity.kt:288-297 | the big-endian value of b is the little-endian value of reverse(b) |
| `TagId.FitsInLong` | app/src/main/java/com/ganlouis/nfc/MainActivity.kt:277-297 | up to 7 bytes both values are below 2^56, so they fit in a `Long` |
| `TagId.LittleEndianStep` | app/src/main/java/com/ganlouis/nfc/MainActivity.kt:280-284 | one turn of `toDec`'s loop adds byte i times 256^i, in `Long` arithmetic |
| `TagId.BigEndianStep` | app/src/main/java/com/ganlouis/nfc/MainActivity.kt:291-295 | one turn of `toReversedDec`'s loop adds byte i with the next power of 256 |
| `TagId.FactorStep` | app/src/main/java/com/ganlouis/nfc/MainActivity.kt:283 | `factor *= 256L` keeps factor equal to the wrapped power of 256 |
| `TagId.ToDec` | app/src/main/java/com/ganlouis/nfc/MainActivity.kt:277-286 | the result is the wrapped sum of b[i]·256^i over unsigned bytes; for n ≤ 7 it is that sum exactly, below 256^n |
| `TagId.ToReversedDec` | app/src/main/java/com/ganlouis/nfc/MainActivity.kt:288-297 | the result is the wrapped big-endian value, i.e. `toDec` of the reversed bytes; exact and below 256^n for n ≤ 7 |
| `CardModel.DefaultCard` | app/src/main/java/com/ganlouis/nfc/models/Card.kt:3-9 | a default card has id "", type and holder "", no tamper protection and balance 0, and so a valid balance |
| `Ndef.Text` | app/src/main/java/com/ganlouis/nfc/MainActivity.kt:136 | payload text has one character per byte, with the byte's unsigned value |
| `Ndef.TextOfAscii` | app/src/main/java/com/ganlouis/nfc/EarnActivity.kt:144 | encoding ASCII text to bytes and reading it back is the identity |
| `Ndef.BalanceBytes` | app/src/main/java/com/ganlouis/nfc/EarnActivity.kt:144 | the bytes written for a balance read back as its `toString()` |
| `Ndef.FieldText` | app/src/main/java/com/ganlouis/nfc/MainActivity.kt:136 | a field is the payload without its first 3 bytes; it exists iff the payload has at least 3 bytes, otherwise the index is reported |
| `Ndef.DecodeCard` | app/src/main/java/com/ganlouis/nfc/MainActivity.kt:131-141 | InsufficientRecords exactly when there are fewer than 5 records; success iff records 0..4 all have the header and field 4 parses as an `Int`; the card is id, type, holder, tamper, eDots from fields 0..4; the first short payload is the one reported; a bad balance reports its text |
| `Ndef.DecodeIgnoresLaterRecords` | app/src/main/java/com/ganlouis/nfc/MainActivity.kt:133-141 | records after index 4 have no effect on decoding |
| `Ndef.TextRecord` | app/src/main/java/com/ganlouis/nfc/EarnActivity.kt:144 | `createTextRecord`: a well-known "T" record whose payload is the language length, the language code, then the text; refused for codes of 64 bytes or more |
| `Ndef.WithBalance` | app/src/main/java/com/ganlouis/nfc/EarnActivity.kt:143-146 | the written records have the original count, record 4 is the text record of the decimal balance and every other record is the original; absent exactly when the list has no slot 4 or the language code is refused |
| `Ndef.BalanceRoundTrip` | app/src/main/java/com/ganlouis/nfc/EarnActivity.kt:112-146 | with a 2-byte language code, decoding the written records gives the decoded card with the new balance, and with the balance unchanged gives the card that was read |
| `Ndef.LongLanguageBreaksCard` | app/src/main/java/com/ganlouis/nfc/EarnActivity.kt:117-144 | with a language code of 3 to 63 bytes whose third byte is a letter ("fil"), the next decode of the written card fails in `toInt()` |
| `Ndef.ShortLanguageCorruptsBalance` | app/src/main/java/com/ganlouis/nfc/EarnActivity.kt:117-144 | with an empty or one-byte language code and a balance of at least 100, the written card still decodes, with every other field intact but a balance smaller than the one written |
| `Transactions.Earn` | app/src/main/java/com/ganlouis/nfc/EarnActivity.kt:121 | the new balance is old balance + price whenever that fits an `Int`, and never below the old one for non-negative values whose sum fits an `Int` |
| `Transactions.Spend` | app/src/main/java/com/ganlouis/nfc/BoggetDotsActivity.kt:92-93 | a purchase proceeds iff balance ≥ price; with a non-negative price the new balance is balance − price, in [0, balance] |
| `Transactions.EarnCommutes` | app/src/main/java/com/ganlouis/nfc/EarnActivity.kt:121 | earning a then b gives the same balance as b then a, overflow included |
| `Transactions.EarnOverflowWraps` | app/src/main/java/com/ganlouis/nfc/EarnActivity.kt:121 | earning 1 on `Int.MAX_VALUE` gives `Int.MIN_VALUE` |
| `Transactions.SpendExactBalance` | app/src/main/java/com/ganlouis/nfc/BoggetDotsActivity.kt:92-93 | a price equal to the balance is accepted and leaves 0 |
| `Transactions.SpendThenEarnRestores` | app/src/main/java/com/ganlouis/nfc/BoggetDotsActivity.kt:92-93 | earning back a purchase's price restores the balance |
| `Transactions.EarnThenSpendRestores` | app/src/main/java/com/ganlouis/nfc/EarnActivity.kt:121 | from a non-negative balance, spending what was just earned (without overflow) restores it |
| `Transactions.EarnAllIsSum` | app/src/main/java/com/ganlouis/nfc/EarnActivity.kt:121 | a run of earns adds the total of the prices, wrapped once |
| `Transactions.SumRemove` | app/src/main/java/com/ganlouis/nfc/EarnActivity.kt:121 | the total of a price list is one price plus the total of the rest |
| `Transactions.SumPermutation` | app/src/main/java/com/ganlouis/nfc/EarnActivity.kt:121 | reordering a price list leaves its total unchanged |
| `Transactions.EarnOrderIrrelevant` | app/src/main/java/com/ganlouis/nfc/EarnActivity.kt:121 | earning a fixed list of prices in any order gives the same balance |
| `TagIo.PlannedWrite` | app/src/main/java/com/ganlouis/nfc/EarnActivity.kt:136-146 | a message is built iff the tag has Ndef, is writable, has a slot 4 and the language code is accepted, and it is the minimal write-back |
| `TagIo.TagAfterWrite` | app/src/main/java/com/ganlouis/nfc/EarnActivity.kt:143-152 | afterwards the tag holds its old message or the planned one; a changed message has the original count and differs from the original at most at index 4 |
| `TagIo.SuccessfulWriteReadsBack` | app/src/main/java/com/ganlouis/nfc/EarnActivity.kt:143-152 | after a successful write with a 2-byte language code the tag decodes to the updated card |
| `TagIo.WriteUpdatedCardToTag` | app/src/main/java/com/ganlouis/nfc/EarnActivity.kt:134-158 | true iff the tag has Ndef, is writable, the records build and connect, write and close all return; the tag is written iff the write itself returned (BoggetDotsActivity.kt:109-133 is the same code) |
| `MainScreen.ResolveIntent` | app/src/main/java/com/ganlouis/nfc/MainActivity.kt:109-159 | a card is shown iff there is a first message that decodes; fewer than 5 records is "Insufficient records"; no message shows the raw tag; the shown id is `toReversedHex` of the serial |
| `EarnScreen.EarnActivity.SelectProduct` | app/src/main/java/com/ganlouis/nfc/EarnActivity.kt:72-75 | the selected product becomes the clicked one |
| `EarnScreen.EarnActivity.ProcessNfcTag` | app/src/main/java/com/ganlouis/nfc/EarnActivity.kt:109-132 | invalid messages and undecodable cards change nothing; with no product nothing happens; otherwise the balance is Earn(old, price), the database update is issued before the tag write, the tag changes only as the write-back allows, and a successful write reads back as the new card |
| `BoggetDotsScreen.BoggetDotsActivity.SelectProduct` | app/src/main/java/com/ganlouis/nfc/BoggetDotsActivity.kt:42-46 | the selected product becomes the clicked one |
| `BoggetDotsScreen.BoggetDotsActivity.ProcessNfcTag` | app/src/main/java/com/ganlouis/nfc/BoggetDotsActivity.kt:80-107 | same guard; a balance below the price reports the current balance and changes nothing; otherwise the balance is balance − price (a valid, non-negative balance for a non-negative price), the database update precedes the tag write, and a successful write reads back as the new card |
| `BoggetDotsScreen.BoggetDotsActivity.UpdateNfcTag` | app/src/main/java/com/ganlouis/nfc/BoggetDotsActivity.kt:151-157 | slot 4 of the record array is overwritten in place with the balance record and every other slot is unchanged; when it throws nothing changes |

## Left out

- Android lifecycle and dispatch (`onCreate`, `onResume`, `onPause`, `onNewIntent`, foreground dispatch, NFC settings), dialogs, menus, navigation and toasts: UI plumbing. The toast a tap ends in is the `TapOutcome` or `ReadOutcome` value.
- The intent filtering in `resolveIntent` and `onNewIntent` (the action check, `tag ?: return`, keeping only `NdefMessage` parcelables): the model receives the tag's serial and its messages directly.
- Firebase: `updateCardInDatabase` is recorded as a `DatabaseUpdate` event in a ghost log, not performed; the lookup in `displayCardInfo` (MainActivity.kt:174-184) is asynchronous remote I/O and is not modelled. The code never compares the tag's card with the remote copy; there is no diff or reconciliation step.
- Physical tag I/O (`Ndef.get`, `connect`, `writeNdefMessage`, `close`): reduced to the `hasNdef` and `writable` flags and an `IoFault` parameter. A failed `writeNdefMessage` is taken to leave the tag unchanged (torn writes are not modelled), and the connection left open when `connect` or the write throws is not modelled.
- `dumpTagData`, `displayRawTagData` and `buildTagViews`: they depend on Mifare platform queries and on `NdefMessageParser`, which are not part of this model.
- ProductAdapter.kt (RecyclerView, image loading, highlighting) and the `getProducts` catalogues (constant data). Product.kt is not part of this model; its price is taken to be an `Int`.
- UTF-8: payload bytes are read as one character per byte. Multi-byte sequences, replacement characters and the non-ASCII Unicode digits `Integer.parseInt` would accept are not modelled; case folding in `toBoolean()` covers A to Z only, which is exact for the characters this reading produces.
- `NdefRecord.createTextRecord` and `Locale.getDefault()` are platform code: the record is modelled from section 3.2.1 of the NFC Forum Text Record Type Definition with the device's language code as a parameter.
- Transactions.Spend: for a negative price the contract does not state the (wrapped) new balance; catalogue prices are positive.
- `selectedProduct` is the only state the screens keep between taps; the card is decoded afresh on every tap. Threads and races between overlapping database writes are not modelled.

=== FILE: bogget_dots_activity.dfy ===
/** The purchase screen (BoggetDotsActivity.kt): a product is selected, the
    card is tapped, and the price is taken off the balance only when the
    balance covers it; then the database update is issued and the tag is
    written back. */
module BoggetDotsScreen {
  import opened Wrappers
  import opened Jvm
  import opened CardModel
  import opened Ndef
  import opened Transactions
  import opened TagIo

  class BoggetDotsActivity {
    /** `selectedProduct`, set by the product grid. */
    var selectedProduct: Option<Product>
    /** The database updates issued and tag writes attempted, in order. */
    ghost var events: seq<Event>

    constructor ()
      ensures selectedProduct == None && events == []
    {
      selectedProduct := None;
      events := [];
    }

    /** The product adapter's click callback: `selectedProduct = product`. */
    method SelectProduct(product: Product)
      modifies this`selectedProduct
      ensures selectedProduct == Some(product)
    {
      selectedProduct := Some(product);
    }

    /** `processNfcTag(tag, messages)`: decode, and if the balance covers the
        price take it off, issue the database update and write the tag;
        otherwise report the current balance and change nothing. */
    method ProcessNfcTag(tag: Tag, messages: seq<Message>, language: seq<Byte>, fault: IoFault)
      returns (outcome: TapOutcome)
      modifies this`events, tag
      ensures !HasCardMessage(messages) ==> outcome == InvalidCardData
      ensures HasCardMessage(messages) && DecodeCard(messages[0]).Failure? ==>
        outcome == Unreadable(DecodeCard(messages[0]).error)
      ensures HasCardMessage(messages) && DecodeCard(messages[0]).Success? ==>
        var balance := DecodeCard(messages[0]).value.eDots;
        if selectedProduct.None? then outcome == NoProductSelected
        else if Spend(balance, selectedProduct.value.price).None? then outcome == InsufficientEDots(balance)
        else outcome.Updated? && outcome.balance == Spend(balance, selectedProduct.value.price).value
      ensures !outcome.Updated? ==> events == old(events) && tag.message == old(tag.message)
      ensures outcome.Updated? ==>
        var card := DecodeCard(messages[0]).value;
        var spent := card.(eDots := outcome.balance);
        && (0 <= selectedProduct.value.price ==> HasValidBalance(spent))
        && outcome.written == (PlannedWrite(tag.hasNdef, tag.writable, messages[0], language,
                                            spent.eDots).Some? && fault == NoFault)
        && events == old(events) + [DatabaseUpdate(spent.boggetId, spent), TagWrite(outcome.written)]
        && tag.message == TagAfterWrite(old(tag.message), tag.hasNdef, tag.writable, messages[0],
                                        language, spent.eDots, fault)
        && (outcome.written && |language| == 2 ==> DecodeCard(tag.message) == Success(spent))
    {
      if !HasCardMessage(messages) {
        return InvalidCardData;
      }
      var records := messages[0];
      var decoded := DecodeCard(records);
      if decoded.Failure? {
        return Unreadable(decoded.error);
      }
      var card := decoded.value;
      if selectedProduct.None? {
        return NoProductSelected;
      }
      var product := selectedProduct.value;
      if card.eDots >= product.price {
        card := card.(eDots := Spend(card.eDots, product.price).value);
        events := events + [DatabaseUpdate(card.boggetId, card)];
        var written := WriteUpdatedCardToTag(tag, card, records, language, fault);
        events := events + [TagWrite(written)];
        if written && |language| == 2 {
          SuccessfulWriteReadsBack(old(tag.message), tag.hasNdef, tag.writable, records, language, card.eDots);
        }
        outcome := Updated(card.eDots, written);
      } else {
        outcome := InsufficientEDots(card.eDots);
      }
    }

    /** `updateNfcTag(message, card)`: overwrites slot 4 of the message's own
        record array with a text record of the balance and leaves every other
        slot alone; `false` stands for the exception thrown when the array
        has no slot 4 or the language code is refused, in which case nothing
        changes. */
    method UpdateNfcTag(records: array<NdefRecord>, card: Card, language: seq<Byte>) returns (ok: bool)
      modifies records
      ensures ok <==> FIELD_COUNT <= records.Length && |language| < 64
      ensures ok ==> Some(records[..]) == WithBalance(old(records[..]), language, card.eDots)
      ensures ok ==> forall i :: 0 <= i < records.Length && i != BALANCE_INDEX ==> records[i] == old(records[i])
      ensures !ok ==> records[..] == old(records[..])
    {
      var record := TextRecord(language, BalanceBytes(card.eDots));
      if record.None? || records.Length <= BALANCE_INDEX {
        return false;
      }
      records[BALANCE_INDEX] := record.value;
      ok := true;
    }
  }
}

=== FILE: card.dfy ===
/** The loyalty card (models/Card.kt). The activities construct it with the
    field names `boggetID` and `edots`, models/Card.kt spells them `BoggetID`
    and `eDots`; both are this one datatype. */
module CardModel {
  import opened Wrappers
  import opened Jvm

  /** A Kotlin data class whose fields are all `var`: the transactions change
      the balance by building the updated value with `.(eDots := ...)`.
      `CardType` and `Cardholder` are nullable strings. */
  datatype Card = Card(
    boggetId: string,
    cardType: Option<string>,
    cardholder: Option<string>,
    tampProtected: bool,
    eDots: Int32)

  /** `Card()` with every default: empty id, type and holder, not tamper
      protected, zero balance. */
  function DefaultCard(): (c: Card)
    ensures c.boggetId == "" && c.cardType == Some("") && c.cardholder == Some("")
    ensures !c.tampProtected && c.eDots == 0
    ensures HasValidBalance(c)
  {
    Card("", Some(""), Some(""), false, 0)
  }

  /** The balance invariant the loyalty scheme relies on; the `Int` field
      itself does not enforce it, and a purchase keeps it. */
  predicate HasValidBalance(c: Card) {
    c.eDots >= 0
  }
}

=== FILE: earn_activity.dfy ===
/** The earn screen (EarnActivity.kt): a product is selected, the card is
    tapped, its balance goes up by the product's price, the database update
    is issued and the new balance is written back to the tag. */
module EarnScreen {
  import opened Wrappers
  import opened Jvm
  import opened CardModel
  import opened Ndef
  import opened Transactions
  import opened TagIo

  class EarnActivity {
    /** `selectedProduct`, set by the product grid. */
    var selectedProduct: Option<Product>
    /** The database updates issued and tag writes attempted, in order. */
    ghost var events: seq<Event>

    constructor ()
      ensures selectedProduct == None && events == []
    {
      selectedProduct := None;
      events := [];
    }

    /** The product adapter's click callback: `selectedProduct = product`. */
    method SelectProduct(product: Product)
      modifies this`selectedProduct
      ensures selectedProduct == Some(product)
    {
      selectedProduct := Some(product);
    }

    /** `processNfcTag(tag, messages)`: decode, add the price, issue the
        database update, then write the tag. */
    method ProcessNfcTag(tag: Tag, messages: seq<Message>, language: seq<Byte>, fault: IoFault)
      returns (outcome: TapOutcome)
      modifies this`events, tag
      ensures !HasCardMessage(messages) ==> outcome == InvalidCardData
      ensures HasCardMessage(messages) && DecodeCard(messages[0]).Failure? ==>
        outcome == Unreadable(DecodeCard(messages[0]).error)
      ensures HasCardMessage(messages) && DecodeCard(messages[0]).Success? ==>
        if selectedProduct.None? then outcome == NoProductSelected
        else outcome.Updated?
             && outcome.balance == Earn(DecodeCard(messages[0]).value.eDots, selectedProduct.value.price)
      ensures !outcome.Updated? ==> events == old(events) && tag.message == old(tag.message)
      ensures outcome.Updated? ==>
        var card := DecodeCard(messages[0]).value;
        var earned := card.(eDots := outcome.balance);
        && outcome.written == (PlannedWrite(tag.hasNdef, tag.writable, messages[0], language,
                                            earned.eDots).Some? && fault == NoFault)
        && events == old(events) + [DatabaseUpdate(earned.boggetId, earned), TagWrite(outcome.written)]
        && tag.message == TagAfterWrite(old(tag.message), tag.hasNdef, tag.writable, messages[0],
                                        language, earned.eDots, fault)
        && (outcome.written && |language| == 2 ==> DecodeCard(tag.message) == Success(earned))
    {
      if !HasCardMessage(messages) {
        return InvalidCardData;
      }
      var records := messages[0];
      var decoded := DecodeCard(records);
      if decoded.Failure? {
        return Unreadable(decoded.error);
      }
      var card := decoded.value;
      if selectedProduct.None? {
        return NoProductSelected;
      }
      var product := selectedProduct.value;
      card := card.(eDots := Earn(card.eDots, product.price));
      events := events + [DatabaseUpdate(card.boggetId, card)];
      var written := WriteUpdatedCardToTag(tag, card, records, language, fault);
      events := events + [TagWrite(written)];
      if written && |language| == 2 {
        SuccessfulWriteReadsBack(old(tag.message), tag.hasNdef, tag.writable, records, language, card.eDots);
      }
      outcome := Updated(card.eDots, written);
    }
  }
}

=== FILE: jvm.dfy ===
/** The fixed-width integers of Kotlin on the JVM and the library conversions
    the card code calls: `Integer.toHexString`, `Int.toString`,
    `String.toInt` (`Integer.parseInt`) and `String.toBoolean`. */
module Jvm {
  import opened Wrappers

  /** Kotlin `Byte`: signed, 8 bits. */
  type Byte = x: int | -0x80 <= x < 0x80

  /** Kotlin `Int`: signed, 32 bits. */
  type Int32 = x: int | -0x8000_0000 <= x < 0x8000_0000

  /** Kotlin `Long`: signed, 64 bits. */
  type Int64 = x: int | -0x8000_0000_0000_0000 <= x < 0x8000_0000_0000_0000

  const INT_MIN: int := -0x8000_0000
  const INT_MAX: int := 0x7fff_ffff
  const INT_MODULUS: int := 0x1_0000_0000
  const LONG_MODULUS: int := 0x1_0000_0000_0000_0000

  /** `b.toInt() and 0xff`: the same eight bits read as an unsigned value. */
  function ToUnsigned(b: Byte): (u: nat)
    ensures u < 0x100
    ensures (u - b) % 0x100 == 0
    ensures 0 <= b ==> u == b
  {
    if b < 0 then b + 0x100 else b
  }

  /** The result of Kotlin `Int` arithmetic whose exact value is `x`
      (two's-complement wrap-around). */
  function WrapInt(x: int): (r: Int32)
    ensures INT_MIN <= x <= INT_MAX ==> r == x
  {
    (x + 0x8000_0000) % INT_MODULUS - 0x8000_0000
  }

  /** The result of Kotlin `Long` arithmetic whose exact value is `x`. */
  function WrapLong(x: int): (r: Int64)
    ensures -0x8000_0000_0000_0000 <= x < 0x8000_0000_0000_0000 ==> r == x
  {
    (x + 0x8000_0000_0000_0000) % LONG_MODULUS - 0x8000_0000_0000_0000
  }

  /** Adding a multiple of 2^32 does not change the wrapped value. */
  lemma WrapIntShift(x: int, k: int)
    ensures WrapInt(x + k * INT_MODULUS) == WrapInt(x)
  {
  }

  /** Wrapping an intermediate sum first gives the same `Int` as wrapping once. */
  lemma WrapIntAddLeft(x: int, y: int)
    ensures WrapInt(WrapInt(x) + y) == WrapInt(x + y)
  {
    var k := (x - WrapInt(x)) / INT_MODULUS;
    assert WrapInt(x) + y == (x + y) - k * INT_MODULUS;
    WrapIntShift(x + y, -k);
  }

  lemma WrapLongShift(x: int, k: int)
    ensures WrapLong(x + k * LONG_MODULUS) == WrapLong(x)
  {
  }

  /** Wrapping both operands of a `Long` addition first changes nothing. */
  lemma WrapLongAdd(x: int, y: int)
    ensures WrapLong(WrapLong(x) + WrapLong(y)) == WrapLong(x + y)
  {
    var k := (x - WrapLong(x)) / LONG_MODULUS;
    var j := (y - WrapLong(y)) / LONG_MODULUS;
    assert WrapLong(x) + WrapLong(y) == (x + y) + (-k - j) * LONG_MODULUS;
    WrapLongShift(x + y, -k - j);
  }

  /** Wrapping a factor of a `Long` product first changes nothing. */
  lemma WrapLongMul(v: int, x: int)
    ensures WrapLong(v * WrapLong(x)) == WrapLong(v * x)
  {
    var k := (x - WrapLong(x)) / LONG_MODULUS;
    assert WrapLong(x) == x - k * LONG_MODULUS;
    assert v * WrapLong(x) == v * x + (-v * k) * LONG_MODULUS;
    WrapLongShift(v * x, -v * k);
  }

  // ---------------------------------------------------------------------
  // Hexadecimal digits: `Integer.toHexString` on a non-negative value.

  const HEX_DIGITS: string := "0123456789abcdef"

  function HexDigit(d: nat): (c: char)
    requires d < 16
    ensures '0' <= c <= '9' || 'a' <= c <= 'f'
  {
    HEX_DIGITS[d]
  }

  /** The value of a lower-case hexadecimal digit, the inverse of HexDigit. */
  function HexValue(c: char): (d: nat)
    ensures d < 16
    ensures ('0' <= c <= '9' || 'a' <= c <= 'f') ==> HexDigit(d) == c
  {
    if '0' <= c <= '9' then c as int - '0' as int
    else if 'a' <= c <= 'f' then c as int - 'a' as int + 10
    else 0
  }

  predicate IsLowerHex(c: char) {
    '0' <= c <= '9' || 'a' <= c <= 'f'
  }

  /** `Integer.toHexString(n)` for `0 <= n`: lower-case digits, most
      significant first, with no leading zeros ("0" for zero). */
  function HexString(n: nat): (s: string)
    ensures 0 < |s|
    ensures forall i :: 0 <= i < |s| ==> IsLowerHex(s[i])
    ensures n < 16 <==> |s| == 1
  {
    if n < 16 then [HexDigit(n)] else HexString(n / 16) + [HexDigit(n % 16)]
  }

  // ---------------------------------------------------------------------
  // Decimal text: `Int.toString()` and `String.toInt()`.

  predicate IsDigit(c: char) {
    '0' <= c <= '9'
  }

  function DigitChar(d: nat): (c: char)
    requires d < 10
    ensures IsDigit(c) && c as int - '0' as int == d
  {
    (d + '0' as int) as char
  }

  /** The decimal digits of `n`, most significant first, no leading zeros. */
  function NatToString(n: nat): (s: string)
    ensures 0 < |s|
    ensures forall i :: 0 <= i < |s| ==> IsDigit(s[i])
    ensures s[0] == '0' <==> n == 0
    ensures n < 10 ==> |s| == 1
  {
    if n < 10 then [DigitChar(n)] else NatToString(n / 10) + [DigitChar(n % 10)]
  }

  /** `Int.toString()`: a minus sign for negative values, then the digits. */
  function IntToString(x: Int32): (s: string)
    ensures 0 < |s|
    ensures forall i :: 0 <= i < |s| ==> IsDigit(s[i]) || s[i] == '-'
    ensures s[0] == '-' <==> x < 0
  {
    if x < 0 then "-" + NatToString(-(x as int)) else NatToString(x)
  }

  predicate AllDigits(s: string) {
    forall i :: 0 <= i < |s| ==> IsDigit(s[i])
  }

  /** The value of a string of decimal digits, read most significant first. */
  function DigitsValue(s: string): nat
    requires AllDigits(s)
  {
    if s == [] then 0
    else
      assert IsDigit(s[|s| - 1]);
      DigitsValue(s[..|s| - 1]) * 10 + (s[|s| - 1] as int - '0' as int)
  }

  /** `String.toInt()`, that is `Integer.parseInt(s, 10)`: an optional sign,
      at least one decimal digit, and a value inside the `Int` range;
      `None` stands for the NumberFormatException it throws otherwise. */
  function ParseInt(s: string): (r: Option<Int32>)
    ensures r.Some? ==> 0 < |s|
    ensures r.Some? && s[0] == '-' ==> r.value <= 0
    ensures r.Some? && s[0] != '-' ==> r.value >= 0
  {
    if |s| == 0 then None
    else
      var signed := s[0] == '-' || s[0] == '+';
      var digits := if signed then s[1..] else s;
      if |digits| == 0 || !AllDigits(digits) then None
      else
        var v: int := if s[0] == '-' then 0 - DigitsValue(digits) as int else DigitsValue(digits);
        if INT_MIN <= v <= INT_MAX then Some(v) else None
  }

  /** Text that starts with neither a sign nor a digit is never an `Int`. */
  lemma ParseIntRejectsNonNumericStart(s: string)
    requires 0 < |s| && !IsDigit(s[0]) && s[0] != '-' && s[0] != '+'
    ensures ParseInt(s).None?
  {
    assert !AllDigits(s);
  }

  /** A character other than a digit after the first position is never part
      of an `Int`, whatever comes first ("12a", "1 ", "+-1"). */
  lemma ParseIntRejectsNonDigit(s: string, i: nat)
    requires 0 < i < |s| && !IsDigit(s[i])
    ensures ParseInt(s).None?
  {
  }

  /** A sign on its own is not a number. */
  lemma ParseIntRejectsLoneSign()
    ensures ParseInt("-").None? && ParseInt("+").None?
  {
  }

  /** Unsigned digits inside the `Int` range parse to their decimal value;
      leading zeros are allowed ("007" is 7). */
  lemma ParseIntOfDigits(s: string)
    requires 0 < |s| && AllDigits(s) && DigitsValue(s) <= INT_MAX
    ensures ParseInt(s) == Some(DigitsValue(s))
  {
  }

  /** A minus sign followed by digits parses to the negated value, down to
      `Int.MIN_VALUE`. */
  lemma ParseIntOfNegativeDigits(digits: string)
    requires 0 < |digits| && AllDigits(digits) && DigitsValue(digits) <= -INT_MIN
    ensures ParseInt("-" + digits) == Some(0 - DigitsValue(digits))
  {
  }

  /** Unsigned digits whose value exceeds `Int.MAX_VALUE` ("2147483648")
      are rejected rather than wrapped. */
  lemma ParseIntRejectsOutOfRange(s: string)
    requires 0 < |s| && AllDigits(s) && DigitsValue(s) > INT_MAX
    ensures ParseInt(s).None?
  {
  }

  /** A '+' sign followed by digits parses to their value. */
  lemma ParseIntOfPlusDigits(digits: string)
    requires 0 < |digits| && AllDigits(digits) && DigitsValue(digits) <= INT_MAX
    ensures ParseInt("+" + digits) == Some(DigitsValue(digits))
  {
    assert ("+" + digits)[1..] == digits;
  }

  /** Signed digits outside the `Int` range ("-2147483649", "+2147483648")
      are rejected rather than wrapped. */
  lemma ParseIntRejectsSignedOutOfRange(digits: string)
    requires 0 < |digits| && AllDigits(digits)
    ensures DigitsValue(digits) > -INT_MIN ==> ParseInt("-" + digits).None?
    ensures DigitsValue(digits) > INT_MAX ==> ParseInt("+" + digits).None?
  {
    assert ("-" + digits)[1..] == digits;
    assert ("+" + digits)[1..] == digits;
  }

  function Pow10(n: nat): (p: nat)
    ensures 1 <= p
  {
    if n == 0 then 1 else 10 * Pow10(n - 1)
  }

  lemma {:induction false} Pow10Monotone(m: nat, n: nat)
    requires m <= n
    ensures Pow10(m) <= Pow10(n)
  {
    if m < n {
      Pow10Monotone(m, n - 1);
    }
  }

  /** A string of `k` digits is worth less than 10^k. */
  lemma {:induction false} DigitsValueBound(s: string)
    requires AllDigits(s)
    ensures DigitsValue(s) < Pow10(|s|)
  {
    if s != [] {
      DigitsValueBound(s[..|s| - 1]);
    }
  }

  /** With no leading zero, the printed digits of `n` are as many as its
      magnitude allows: a number of `L > 1` digits is at least 10^(L-1). */
  lemma {:induction false} NatToStringLowerBound(n: nat)
    ensures 1 < |NatToString(n)| ==> Pow10(|NatToString(n)| - 1) <= n
  {
    if n >= 10 {
      NatToStringLowerBound(n / 10);
    }
  }

  /** Dropping leading digits from the printed form of `n` gives a smaller
      number (as long as it leaves some). */
  lemma DroppedDigitsAreSmaller(n: nat, k: nat)
    requires 0 < k < |NatToString(n)|
    ensures AllDigits(NatToString(n)[k..])
    ensures DigitsValue(NatToString(n)[k..]) < n
  {
    var s := NatToString(n);
    DigitsValueBound(s[k..]);
    Pow10Monotone(|s| - k, |s| - 1);
    NatToStringLowerBound(n);
  }

  lemma {:induction false} DigitsValueOfNatToString(n: nat)
    ensures DigitsValue(NatToString(n)) == n
  {
    if n >= 10 {
      var s := NatToString(n);
      assert s[..|s| - 1] == NatToString(n / 10);
      DigitsValueOfNatToString(n / 10);
    }
  }

  /** Parsing what `Int.toString()` prints gives back the same `Int`. */
  lemma ParseIntToString(x: Int32)
    ensures ParseInt(IntToString(x)) == Some(x)
  {
    var s := IntToString(x);
    if x < 0 {
      var n: nat := -(x as int);
      assert s[0] == '-' && s[1..] == NatToString(n);
      DigitsValueOfNatToString(n);
    } else {
      assert s[0] != '-' && s[0] != '+';
      DigitsValueOfNatToString(x);
    }
  }

  // ---------------------------------------------------------------------
  // `String.toBoolean()`: `equals("true", ignoreCase = true)`.

  /** Case folding of the letters A to Z (the only ones that can match "true"). */
  function LowerAscii(c: char): (l: char)
  {
    if 'A' <= c <= 'Z' then (c as int + 32) as char else c
  }

  /** `a.equals(b, ignoreCase = true)`. */
  predicate EqualsIgnoreCase(a: string, b: string) {
    |a| == |b| && forall i :: 0 <= i < |a| ==> LowerAscii(a[i]) == LowerAscii(b[i])
  }

  /** `s.toBoolean()`: true exactly for "true" in any mix of cases; every other
      text, including "false" and "", gives false rather than an error. */
  function ToBoolean(s: string): (b: bool)
    ensures b ==> |s| == 4
    ensures b <==> (|s| == 4 && LowerAscii(s[0]) == 't' && LowerAscii(s[1]) == 'r'
                    && LowerAscii(s[2]) == 'u' && LowerAscii(s[3]) == 'e')
  {
    EqualsIgnoreCase(s, "true")
  }
}

=== FILE: main_activity.dfy ===
/** The read-only screen (MainActivity.kt): `resolveIntent` for a tag-discovered
    intent, without the views, toasts and the database lookup it starts. */
module MainScreen {
  import opened Wrappers
  import opened Jvm
  import opened CardModel
  import opened Ndef
  import opened TagId

  /** Where `resolveIntent` ends up. */
  datatype ReadOutcome =
    | CardShown(card: Card, idReversedHex: string)  // `displayCardInfo(card, idReversedHex)`
    | TooFewRecords                                 // "Insufficient records in NFC tag"
    | RawTagShown(idReversedHex: string)            // no NDEF message: `dumpTagData`
    | ReadFailed(error: DecodeError)                // the `Card(...)` call threw

  /** `resolveIntent` for a tag with serial number `tagId` whose NDEF
      messages are `messages`. A card is built only from a first message
      with at least five records. */
  method ResolveIntent(tagId: seq<Byte>, messages: seq<Message>) returns (outcome: ReadOutcome)
    ensures outcome.CardShown? <==> |messages| > 0 && DecodeCard(messages[0]).Success?
    ensures outcome.CardShown? ==>
      outcome.card == DecodeCard(messages[0]).value && outcome.idReversedHex == ColonHex(tagId)
    ensures outcome.TooFewRecords? <==> |messages| > 0 && |messages[0]| < FIELD_COUNT
    ensures outcome.RawTagShown? <==> messages == []
    ensures outcome.RawTagShown? ==> outcome.idReversedHex == ColonHex(tagId)
    ensures outcome.ReadFailed? ==>
      |messages| > 0 && FIELD_COUNT <= |messages[0]| && Failure(outcome.error) == DecodeCard(messages[0])
  {
    var idReversedHex := ToReversedHex(tagId);
    if |messages| > 0 {
      var records := messages[0];
      if |records| >= FIELD_COUNT {
        var decoded := DecodeCard(records);
        match decoded
        case Success(card) =>
          outcome := CardShown(card, idReversedHex);
        case Failure(error) =>
          outcome := ReadFailed(error);
      } else {
        outcome := TooFewRecords;
      }
    } else {
      outcome := RawTagShown(idReversedHex);
    }
  }
}

=== FILE: ndef.dfy ===
/** The card's layout on the tag: five NDEF text records in the first
    message, decoded the way all three activities do it, and the minimal
    write-back that replaces only the balance record. */
module Ndef {
  import opened Wrappers
  import opened Jvm
  import opened CardModel

  /** An NDEF record: type name format, type, id and payload bytes. */
  datatype NdefRecord = NdefRecord(tnf: int, recordType: seq<Byte>, id: seq<Byte>, payload: seq<Byte>)

  /** The records of one `NdefMessage`, in order. */
  type Message = seq<NdefRecord>

  const TNF_WELL_KNOWN: int := 1
  /** Record type "T" of the NFC Forum Text Record Type Definition. */
  const RTD_TEXT: seq<Byte> := [0x54]
  /** Bytes skipped in front of every field: a status byte and a language
      code assumed to be two bytes long. */
  const HEADER_LENGTH: nat := 3
  const FIELD_COUNT: nat := 5
  const BALANCE_INDEX: nat := 4

  // ---------------------------------------------------------------------
  // Text <-> bytes.

  /** Payload bytes read as text, one character per byte. */
  function Text(bytes: seq<Byte>): (s: string)
    ensures |s| == |bytes|
    ensures forall i :: 0 <= i < |bytes| ==> s[i] as int == ToUnsigned(bytes[i])
  {
    seq(|bytes|, i requires 0 <= i < |bytes| => ToUnsigned(bytes[i]) as char)
  }

  predicate IsAscii(s: string) {
    forall i :: 0 <= i < |s| ==> s[i] as int < 0x80
  }

  /** The encoding of an ASCII string: one byte per character. */
  function AsciiBytes(s: string): (b: seq<Byte>)
    requires IsAscii(s)
    ensures |b| == |s|
  {
    seq(|s|, i requires 0 <= i < |s| => s[i] as int)
  }

  lemma TextOfAscii(s: string)
    requires IsAscii(s)
    ensures Text(AsciiBytes(s)) == s
  {
  }

  /** The bytes of `Int.toString()`. */
  function BalanceBytes(balance: Int32): (b: seq<Byte>)
    ensures Text(b) == IntToString(balance)
  {
    var s := IntToString(balance);
    assert IsAscii(s);
    TextOfAscii(s);
    AsciiBytes(s)
  }

  // ---------------------------------------------------------------------
  // Decoding.

  datatype DecodeError =
    | InsufficientRecords           // fewer than five records
    | PayloadTooShort(index: nat)   // `String(payload, 3, size - 3, ...)` out of bounds
    | NotAnInt(text: string)        // `toInt()` threw NumberFormatException

  /** `String(records[i].payload, 3, records[i].payload.size - 3, UTF_8)`:
      the payload without its first three bytes; a payload shorter than
      three bytes makes the constructor throw. */
  function FieldText(records: Message, i: nat): (r: Result<string, DecodeError>)
    requires i < |records|
    ensures r.Success? <==> HEADER_LENGTH <= |records[i].payload|
    ensures r.Success? ==> r.value == Field(records, i)
    ensures r.Failure? ==> r.error == PayloadTooShort(i)
  {
    if |records[i].payload| < HEADER_LENGTH then Failure(PayloadTooShort(i)) else Success(Field(records, i))
  }

  /** The text of field `i`, for a record long enough to have one. */
  function Field(records: Message, i: nat): string
    requires i < |records| && HEADER_LENGTH <= |records[i].payload|
  {
    Text(records[i].payload[HEADER_LENGTH..])
  }

  predicate HeadersPresent(records: Message)
    requires FIELD_COUNT <= |records|
  {
    forall i :: 0 <= i < FIELD_COUNT ==> HEADER_LENGTH <= |records[i].payload|
  }

  /** The `Card(...)` constructor call of the three activities: the fields
      are evaluated in order, id, type, holder, tamper flag, balance, so the
      first short payload is the one reported, and the balance text is
      parsed last. */
  function DecodeCard(records: Message): (r: Result<Card, DecodeError>)
    ensures r == Failure(InsufficientRecords) <==> |records| < FIELD_COUNT
    ensures r.Success? <==>
      FIELD_COUNT <= |records| && HeadersPresent(records)
      && ParseInt(Field(records, BALANCE_INDEX)).Some?
    ensures r.Success? ==>
      r.value == Card(Field(records, 0), Some(Field(records, 1)), Some(Field(records, 2)),
                      ToBoolean(Field(records, 3)), ParseInt(Field(records, 4)).value)
    ensures r.Failure? && r.error.PayloadTooShort? ==>
      var k := r.error.index;
      FIELD_COUNT <= |records| && k < FIELD_COUNT && |records[k].payload| < HEADER_LENGTH
      && forall j :: 0 <= j < k ==> HEADER_LENGTH <= |records[j].payload|
    ensures r.Failure? && r.error.NotAnInt? ==>
      FIELD_COUNT <= |records| && HeadersPresent(records)
      && r.error.text == Field(records, BALANCE_INDEX)
  {
    if |records| < FIELD_COUNT then Failure(InsufficientRecords)
    else
      var id :- FieldText(records, 0);
      var cardType :- FieldText(records, 1);
      var cardholder :- FieldText(records, 2);
      var tamper :- FieldText(records, 3);
      var eDots :- FieldText(records, 4);
      match ParseInt(eDots)
      case None => Failure(NotAnInt(eDots))
      case Some(n) => Success(Card(id, Some(cardType), Some(cardholder), ToBoolean(tamper), n))
  }

  /** Records after index 4 play no part in decoding. */
  lemma DecodeIgnoresLaterRecords(records: Message, extra: Message)
    requires FIELD_COUNT <= |records|
    ensures DecodeCard(records + extra) == DecodeCard(records)
    ensures DecodeCard(records) == DecodeCard(records[..FIELD_COUNT])
  {
    var r5 := records[..FIELD_COUNT];
    assert forall i :: 0 <= i < FIELD_COUNT ==> (records + extra)[i] == records[i] == r5[i];
  }

  // ---------------------------------------------------------------------
  // Encoding the balance.

  /** `NdefRecord.createTextRecord(null, text)` with the device's language
      code: a well-known "T" record whose payload is a status byte holding
      the language length (UTF-8 flag clear), the language code, then the
      text, as in section 3.2.1 of the NFC Forum Text Record Type
      Definition. A code of 64 bytes or more makes it throw. */
  function TextRecord(language: seq<Byte>, text: seq<Byte>): (r: Option<NdefRecord>)
    ensures r.Some? <==> |language| < 64
    ensures r.Some? ==>
      && r.value.tnf == TNF_WELL_KNOWN && r.value.recordType == RTD_TEXT
      && |r.value.payload| == 1 + |language| + |text|
      && r.value.payload[0] == |language|
      && r.value.payload[1..1 + |language|] == language
      && r.value.payload[1 + |language|..] == text
  {
    if |language| >= 64 then None
    else
      var payload := [|language| as Byte] + language + text;
      assert payload[1..1 + |language|] == language;
      assert payload[1 + |language|..] == text;
      Some(NdefRecord(TNF_WELL_KNOWN, RTD_TEXT, [], payload))
  }

  /** `records.toMutableList()` with slot 4 replaced by a text record of the
      decimal balance; `None` where the source throws (fewer than five
      records, or a language code `createTextRecord` refuses). */
  function WithBalance(records: Message, language: seq<Byte>, balance: Int32): (r: Option<Message>)
    ensures r.Some? <==> FIELD_COUNT <= |records| && |language| < 64
    ensures r.Some? ==>
      && |r.value| == |records|
      && Some(r.value[BALANCE_INDEX]) == TextRecord(language, BalanceBytes(balance))
      && forall i :: 0 <= i < |records| && i != BALANCE_INDEX ==> r.value[i] == records[i]
  {
    if |records| < FIELD_COUNT then None
    else
      match TextRecord(language, BalanceBytes(balance))
      case None => None
      case Some(record) => Some(records[BALANCE_INDEX := record])
  }

  /** Writing a balance and decoding the result gives back the same card
      with that balance, provided the language code is two bytes long, the
      length the decoder assumes. With the balance unchanged, decoding the
      written records gives the card that was read. */
  lemma BalanceRoundTrip(records: Message, language: seq<Byte>, balance: Int32)
    requires DecodeCard(records).Success?
    requires |language| == 2
    ensures WithBalance(records, language, balance).Some?
    ensures DecodeCard(WithBalance(records, language, balance).value)
         == Success(DecodeCard(records).value.(eDots := balance))
    ensures DecodeCard(WithBalance(records, language, DecodeCard(records).value.eDots).value)
         == DecodeCard(records)
  {
    var text := BalanceBytes(balance);
    var written := WithBalance(records, language, balance).value;
    var p := written[BALANCE_INDEX].payload;
    assert p[HEADER_LENGTH..] == text;
    ParseIntToString(balance);
    forall i | 0 <= i < FIELD_COUNT && i != BALANCE_INDEX
      ensures Field(written, i) == Field(records, i)
    {
    }
    var again := DecodeCard(records).value.eDots;
    var written2 := WithBalance(records, language, again).value;
    assert written2[BALANCE_INDEX].payload[HEADER_LENGTH..] == BalanceBytes(again);
    ParseIntToString(again);
    forall i | 0 <= i < FIELD_COUNT && i != BALANCE_INDEX
      ensures Field(written2, i) == Field(records, i)
    {
    }
  }

  /** With a language code longer than two letters (for example "fil"),
      the third letter lands in front of the balance digits, so the next read
      of the card fails in `toInt()`. */
  lemma LongLanguageBreaksCard(records: Message, language: seq<Byte>, balance: Int32)
    requires DecodeCard(records).Success?
    requires 3 <= |language| < 64 && 'a' as int <= language[2] <= 'z' as int
    ensures WithBalance(records, language, balance).Some?
    ensures DecodeCard(WithBalance(records, language, balance).value).Failure?
    ensures DecodeCard(WithBalance(records, language, balance).value).error.NotAnInt?
  {
    var written := WithBalance(records, language, balance).value;
    var p := written[BALANCE_INDEX].payload;
    LongLanguagePayload(language, BalanceBytes(balance));
    assert p[HEADER_LENGTH] == language[2];
    forall i | 0 <= i < FIELD_COUNT ensures HEADER_LENGTH <= |written[i].payload| {
    }
    assert HeadersPresent(written);
    var t := Field(written, BALANCE_INDEX);
    assert t[0] as int == language[2];
    ParseIntRejectsNonNumericStart(t);
    assert ParseInt(t).None?;
  }

  /** The balance field the decoder reads back from a text record starts at
      the third byte of the language code once that code is longer than two. */
  lemma LongLanguagePayload(language: seq<Byte>, text: seq<Byte>)
    requires 3 <= |language| < 64
    ensures |TextRecord(language, text).value.payload| >= HEADER_LENGTH + 1
    ensures TextRecord(language, text).value.payload[HEADER_LENGTH] == language[2]
  {
    var p := TextRecord(language, text).value.payload;
    assert p[1..1 + |language|][2] == language[2];
  }

  /** With a language code shorter than two bytes (an empty code, or a
      one-letter one), the decoder's fixed 3-byte skip eats the first digits
      of the balance: the card still decodes, every other field intact, but
      with a smaller balance than the one written. */
  lemma ShortLanguageCorruptsBalance(records: Message, language: seq<Byte>, balance: Int32)
    requires DecodeCard(records).Success?
    requires |language| < 2 && 100 <= balance
    ensures WithBalance(records, language, balance).Some?
    ensures DecodeCard(WithBalance(records, language, balance).value).Success?
    ensures var read := DecodeCard(WithBalance(records, language, balance).value).value;
      && read.eDots < balance
      && read == DecodeCard(records).value.(eDots := read.eDots)
  {
    var written := WithBalance(records, language, balance).value;
    var v := ShortLanguageField(language, balance);
    assert ParseInt(Field(written, BALANCE_INDEX)) == Some(v);
    forall i | 0 <= i < FIELD_COUNT && i != BALANCE_INDEX
      ensures Field(written, i) == Field(records, i)
    {
    }
  }

  /** The balance field read back from a text record written with a short
      language code: the printed balance minus its first digit or two, which
      parses to a smaller value. */
  lemma ShortLanguageField(language: seq<Byte>, balance: Int32) returns (v: Int32)
    requires |language| < 2 && 100 <= balance
    ensures HEADER_LENGTH <= |TextRecord(language, BalanceBytes(balance)).value.payload|
    ensures ParseInt(Text(TextRecord(language, BalanceBytes(balance)).value.payload[HEADER_LENGTH..])) == Some(v)
    ensures v < balance
  {
    var text := BalanceBytes(balance);
    var p := TextRecord(language, text).value.payload;
    var k := 2 - |language|;
    var digits := NatToString(balance);
    assert Text(text) == digits;
    assert |NatToString(balance / 10)| >= 2 by {
      assert NatToString(balance / 10) == NatToString(balance / 100) + [DigitChar(balance / 10 % 10)];
    }
    assert p[1 + |language|..] == text;
    assert p[HEADER_LENGTH..] == text[k..];
    assert Text(p[HEADER_LENGTH..]) == digits[k..];
    DroppedDigitsAreSmaller(balance, k);
    ParseIntOfDigits(digits[k..]);
    v := DigitsValue(digits[k..]);
  }
}

=== FILE: tag_id.dfy ===
/** The four renderings of a tag's hardware serial number (`tag.id`) in
    MainActivity.kt: `toHex`, `toReversedHex`, `toDec` and `toReversedDec`.
    Each is a method with the source's loop, proved against a specification
    function whose properties are stated as lemmas. */
module TagId {
  import opened Jvm

  function Reverse<T>(s: seq<T>): (r: seq<T>)
    ensures |r| == |s|
  {
    seq(|s|, i requires 0 <= i < |s| => s[|s| - 1 - i])
  }

  // ---------------------------------------------------------------------
  // Hexadecimal renderings.

  /** The characters appended for one byte: a '0' when the unsigned value
      is below 0x10, then `Integer.toHexString` of it. */
  function HexPair(b: Byte): (s: string)
    ensures |s| == 2
    ensures s[0] == HexDigit(ToUnsigned(b) / 16) && s[1] == HexDigit(ToUnsigned(b) % 16)
  {
    var u := ToUnsigned(b);
    if u < 0x10 then
      "0" + HexString(u)
    else
      assert HexString(u) == HexString(u / 16) + [HexDigit(u % 16)];
      HexString(u)
  }

  /** Reading a pair back as a hexadecimal number gives the unsigned byte. */
  lemma HexPairValue(b: Byte)
    ensures HexValue(HexPair(b)[0]) * 16 + HexValue(HexPair(b)[1]) == ToUnsigned(b)
  {
    var u := ToUnsigned(b);
    assert HexValue(HexDigit(u / 16)) == u / 16;
    assert HexValue(HexDigit(u % 16)) == u % 16;
  }

  /** Distinct bytes give distinct pairs. */
  lemma HexPairInjective(a: Byte, b: Byte)
    requires HexPair(a) == HexPair(b)
    ensures a == b
  {
    HexPairValue(a);
    HexPairValue(b);
  }

  /** One group per byte, in array order. */
  function HexGroups(bytes: seq<Byte>): (g: seq<string>)
    ensures |g| == |bytes|
  {
    seq(|bytes|, i requires 0 <= i < |bytes| => HexPair(bytes[i]))
  }

  /** The groups with `sep` between neighbours and none at either end. */
  function Joined(groups: seq<string>, sep: char): string
  {
    if |groups| == 0 then ""
    else if |groups| == 1 then groups[0]
    else Joined(groups[..|groups| - 1], sep) + [sep] + groups[|groups| - 1]
  }

  /** What `toReversedHex` returns: the pairs in array order joined by ':'. */
  function ColonHex(bytes: seq<Byte>): string
  {
    Joined(HexGroups(bytes), ':')
  }

  /** What `toHex` returns: the pairs in reverse array order joined by ' '. */
  function SpaceHex(bytes: seq<Byte>): string
  {
    Joined(HexGroups(Reverse(bytes)), ' ')
  }

  predicate AllPairs(groups: seq<string>) {
    forall k :: 0 <= k < |groups| ==> |groups[k]| == 2
  }

  lemma {:induction false} JoinedLength(groups: seq<string>, sep: char)
    requires AllPairs(groups)
    ensures |Joined(groups, sep)| == if |groups| == 0 then 0 else 3 * |groups| - 1
  {
    if |groups| > 1 {
      JoinedLength(groups[..|groups| - 1], sep);
    }
  }

  /** Group `k` sits at offsets 3k and 3k+1, and a separator follows every
      group but the last. */
  lemma {:induction false} JoinedAt(groups: seq<string>, sep: char, k: nat)
    requires AllPairs(groups) && k < |groups|
    ensures |Joined(groups, sep)| == 3 * |groups| - 1
    ensures Joined(groups, sep)[3 * k] == groups[k][0]
    ensures Joined(groups, sep)[3 * k + 1] == groups[k][1]
    ensures k < |groups| - 1 ==> Joined(groups, sep)[3 * k + 2] == sep
  {
    JoinedLength(groups, sep);
    var n := |groups|;
    if n > 1 {
      var init := groups[..n - 1];
      JoinedLength(init, sep);
      assert Joined(groups, sep) == Joined(init, sep) + [sep] + groups[n - 1];
      if k < n - 1 {
        JoinedAt(init, sep, k);
      }
    }
  }

  /** `toReversedHex` output shape: 3n-1 characters for n bytes, the two
      lower-case digits of byte k at offsets 3k and 3k+1, a ':' after every
      pair but the last. */
  lemma ColonHexShape(bytes: seq<Byte>, k: nat)
    requires k < |bytes|
    ensures |ColonHex(bytes)| == 3 * |bytes| - 1
    ensures ColonHex(bytes)[3 * k] == HexDigit(ToUnsigned(bytes[k]) / 16)
    ensures ColonHex(bytes)[3 * k + 1] == HexDigit(ToUnsigned(bytes[k]) % 16)
    ensures k < |bytes| - 1 ==> ColonHex(bytes)[3 * k + 2] == ':'
  {
    JoinedAt(HexGroups(bytes), ':', k);
  }

  /** `toHex` output shape: the pair of byte n-1-k at offsets 3k and 3k+1,
      a ' ' after every pair but the last. */
  lemma SpaceHexShape(bytes: seq<Byte>, k: nat)
    requires k < |bytes|
    ensures |SpaceHex(bytes)| == 3 * |bytes| - 1
    ensures SpaceHex(bytes)[3 * k] == HexDigit(ToUnsigned(bytes[|bytes| - 1 - k]) / 16)
    ensures SpaceHex(bytes)[3 * k + 1] == HexDigit(ToUnsigned(bytes[|bytes| - 1 - k]) % 16)
    ensures k < |bytes| - 1 ==> SpaceHex(bytes)[3 * k + 2] == ' '
  {
    JoinedAt(HexGroups(Reverse(bytes)), ' ', k);
  }

  function ReplaceChar(s: string, from: char, to: char): (r: string)
    ensures |r| == |s|
  {
    seq(|s|, i requires 0 <= i < |s| => if s[i] == from then to else s[i])
  }

  lemma {:induction false} JoinedReplace(groups: seq<string>)
    requires forall k, i :: 0 <= k < |groups| && 0 <= i < |groups[k]| ==> IsLowerHex(groups[k][i])
    ensures ReplaceChar(Joined(groups, ':'), ':', ' ') == Joined(groups, ' ')
  {
    var n := |groups|;
    if n == 1 {
      assert forall i :: 0 <= i < |groups[0]| ==> IsLowerHex(groups[0][i]);
    } else if n > 1 {
      var init := groups[..n - 1];
      JoinedReplace(init);
      var a, b := Joined(init, ':'), groups[n - 1];
      assert forall i :: 0 <= i < |b| ==> IsLowerHex(b[i]);
      assert ReplaceChar(a + [':'] + b, ':', ' ') == ReplaceChar(a, ':', ' ') + [' '] + b;
    }
  }

  /** `toHex(b)` is `toReversedHex` of the reversed bytes with every ':'
      turned into ' '. */
  lemma SpaceHexIsColonHexOfReverse(bytes: seq<Byte>)
    ensures SpaceHex(bytes) == ReplaceChar(ColonHex(Reverse(bytes)), ':', ' ')
  {
    var g := HexGroups(Reverse(bytes));
    forall k, i | 0 <= k < |g| && 0 <= i < |g[k]| ensures IsLowerHex(g[k][i]) {
    }
    JoinedReplace(g);
  }

  lemma JoinedSnoc(groups: seq<string>, g: string, sep: char)
    ensures Joined(groups + [g], sep) == if groups == [] then g else Joined(groups, sep) + [sep] + g
  {
    assert (groups + [g])[..|groups|] == groups;
  }

  /** `toReversedHex`: a pair per byte in array order, ':' before every pair
      but the first. */
  method ToReversedHex(bytes: seq<Byte>) returns (s: string)
    ensures s == ColonHex(bytes)
  {
    s := "";
    var i := 0;
    while i < |bytes|
      invariant 0 <= i <= |bytes|
      invariant s == Joined(HexGroups(bytes[..i]), ':')
    {
      if i > 0 {
        s := s + ":";
      }
      s := s + HexPair(bytes[i]);
      assert HexGroups(bytes[..i + 1]) == HexGroups(bytes[..i]) + [HexPair(bytes[i])];
      i := i + 1;
    }
    assert bytes[..i] == bytes;
  }

  /** `toHex`: a pair per byte from the last index down to the first, ' '
      after every pair but the one for index 0. */
  method ToHex(bytes: seq<Byte>) returns (s: string)
    ensures s == SpaceHex(bytes)
  {
    var n := |bytes|;
    s := "";
    var i := n;
    while i > 0
      invariant 0 <= i <= n
      invariant s == SpaceHex(bytes[i..]) + (if 0 < i < n then " " else "")
    {
      i := i - 1;
      SpaceHexStep(bytes, i);
      s := s + HexPair(bytes[i]);
      if i > 0 {
        s := s + " ";
      }
    }
    assert bytes[0..] == bytes;
  }

  /** Taking in one more byte on the left adds its pair on the right. */
  lemma SpaceHexStep(bytes: seq<Byte>, i: nat)
    requires i < |bytes|
    ensures SpaceHex(bytes[i..]) ==
      if i == |bytes| - 1 then HexPair(bytes[i])
      else SpaceHex(bytes[i + 1..]) + " " + HexPair(bytes[i])
  {
    var tail := Reverse(bytes[i + 1..]);
    assert Reverse(bytes[i..]) == tail + [bytes[i]];
    assert HexGroups(tail + [bytes[i]]) == HexGroups(tail) + [HexPair(bytes[i])];
    JoinedSnoc(HexGroups(tail), HexPair(bytes[i]), ' ');
  }

  // ---------------------------------------------------------------------
  // Decimal renderings.

  function Pow256(n: nat): (p: nat)
    ensures 0 < p
  {
    if n == 0 then 1 else 256 * Pow256(n - 1)
  }

  /** The bytes as an unsigned little-endian number: byte i weighs 256^i. */
  function LittleEndian(bytes: seq<Byte>): nat
  {
    if bytes == [] then 0
    else LittleEndian(bytes[..|bytes| - 1]) + ToUnsigned(bytes[|bytes| - 1]) * Pow256(|bytes| - 1)
  }

  /** The bytes as an unsigned big-endian number: byte i weighs 256^(n-1-i). */
  function BigEndian(bytes: seq<Byte>): nat
  {
    if bytes == [] then 0
    else ToUnsigned(bytes[0]) * Pow256(|bytes| - 1) + BigEndian(bytes[1..])
  }

  /** An n-byte number lies in [0, 256^n). */
  lemma {:induction false} LittleEndianBound(bytes: seq<Byte>)
    ensures LittleEndian(bytes) < Pow256(|bytes|)
  {
    if bytes != [] {
      var n := |bytes|;
      LittleEndianBound(bytes[..n - 1]);
      DigitBound(LittleEndian(bytes[..n - 1]), ToUnsigned(bytes[n - 1]), Pow256(n - 1));
    }
  }

  lemma DigitBound(low: nat, u: nat, p: nat)
    requires low < p && u < 256
    ensures low + u * p < 256 * p
  {
    assert u * p <= 255 * p;
  }

  /** Big-endian is little-endian of the reversed bytes. */
  lemma {:induction false} BigEndianIsReversedLittleEndian(bytes: seq<Byte>)
    ensures BigEndian(bytes) == LittleEndian(Reverse(bytes))
  {
    if bytes != [] {
      var n := |bytes|;
      var r := Reverse(bytes);
      BigEndianIsReversedLittleEndian(bytes[1..]);
      assert r[..n - 1] == Reverse(bytes[1..]);
      assert r[n - 1] == bytes[0];
    }
  }

  lemma {:induction false} Pow256Monotone(m: nat, n: nat)
    requires m <= n
    ensures Pow256(m) <= Pow256(n)
  {
    if m < n {
      Pow256Monotone(m, n - 1);
    }
  }

  /** Up to seven bytes the number fits in a `Long` without wrapping. */
  lemma FitsInLong(bytes: seq<Byte>)
    requires |bytes| <= 7
    ensures LittleEndian(bytes) < 0x1_0000_0000_0000_00
    ensures BigEndian(bytes) < 0x1_0000_0000_0000_00
  {
    LittleEndianBound(bytes);
    LittleEndianBound(Reverse(bytes));
    BigEndianIsReversedLittleEndian(bytes);
    Pow256Monotone(|bytes|, 7);
    assert Pow256(7) == 0x1_0000_0000_0000_00;
  }

  /** One turn of `toDec`'s loop in `Long` arithmetic adds byte i times 256^i. */
  lemma LittleEndianStep(bytes: seq<Byte>, i: nat)
    requires i < |bytes|
    ensures WrapLong(WrapLong(LittleEndian(bytes[..i]))
                     + WrapLong(ToUnsigned(bytes[i]) * WrapLong(Pow256(i))))
         == WrapLong(LittleEndian(bytes[..i + 1]))
  {
    var value := ToUnsigned(bytes[i]);
    assert bytes[..i + 1][..i] == bytes[..i];
    assert LittleEndian(bytes[..i + 1]) == LittleEndian(bytes[..i]) + value * Pow256(i);
    WrapLongMul(value, Pow256(i));
    WrapLongAdd(LittleEndian(bytes[..i]), value * Pow256(i));
  }

  /** One turn of `toReversedDec`'s loop adds byte i with the next weight. */
  lemma BigEndianStep(bytes: seq<Byte>, i: nat)
    requires i < |bytes|
    ensures WrapLong(WrapLong(BigEndian(bytes[i + 1..]))
                     + WrapLong(ToUnsigned(bytes[i]) * WrapLong(Pow256(|bytes| - 1 - i))))
         == WrapLong(BigEndian(bytes[i..]))
  {
    var value := ToUnsigned(bytes[i]);
    var p := Pow256(|bytes| - 1 - i);
    assert bytes[i..][1..] == bytes[i + 1..];
    assert BigEndian(bytes[i..]) == value * p + BigEndian(bytes[i + 1..]);
    WrapLongMul(value, p);
    WrapLongAdd(BigEndian(bytes[i + 1..]), value * p);
  }

  lemma FactorStep(i: nat)
    ensures WrapLong(WrapLong(Pow256(i)) * 256) == WrapLong(Pow256(i + 1))
  {
    WrapLongMul(256, Pow256(i));
    assert WrapLong(Pow256(i)) * 256 == 256 * WrapLong(Pow256(i));
  }

  /** `toDec`: the bytes as a little-endian number, accumulated in `Long`s
      (wrapping past eight bytes as the source's `Long` arithmetic does). */
  method ToDec(bytes: seq<Byte>) returns (r: Int64)
    ensures r == WrapLong(LittleEndian(bytes))
    ensures |bytes| <= 7 ==> r == LittleEndian(bytes) && r < Pow256(|bytes|)
  {
    var result: Int64 := 0;
    var factor: Int64 := 1;
    var i := 0;
    while i < |bytes|
      invariant 0 <= i <= |bytes|
      invariant result == WrapLong(LittleEndian(bytes[..i]))
      invariant factor == WrapLong(Pow256(i))
    {
      var value := ToUnsigned(bytes[i]);
      LittleEndianStep(bytes, i);
      result := WrapLong(result + WrapLong(value * factor));
      FactorStep(i);
      factor := WrapLong(factor * 256);
      i := i + 1;
    }
    assert bytes[..i] == bytes;
    r := result;
    if |bytes| <= 7 {
      FitsInLong(bytes);
      LittleEndianBound(bytes);
    }
  }

  /** `toReversedDec`: the bytes as a big-endian number, that is `toDec` of
      the reversed bytes. */
  method ToReversedDec(bytes: seq<Byte>) returns (r: Int64)
    ensures r == WrapLong(BigEndian(bytes))
    ensures r == WrapLong(LittleEndian(Reverse(bytes)))
    ensures |bytes| <= 7 ==> r == BigEndian(bytes) && r < Pow256(|bytes|)
  {
    var n := |bytes|;
    var result: Int64 := 0;
    var factor: Int64 := 1;
    var i := n;
    while i > 0
      invariant 0 <= i <= n
      invariant result == WrapLong(BigEndian(bytes[i..]))
      invariant factor == WrapLong(Pow256(n - i))
    {
      i := i - 1;
      var value := ToUnsigned(bytes[i]);
      BigEndianStep(bytes, i);
      result := WrapLong(result + WrapLong(value * factor));
      FactorStep(n - 1 - i);
      factor := WrapLong(factor * 256);
    }
    assert bytes[0..] == bytes;
    r := result;
    BigEndianIsReversedLittleEndian(bytes);
    if n <= 7 {
      FitsInLong(bytes);
      LittleEndianBound(Reverse(bytes));
    }
  }
}

=== FILE: tag_io.dfy ===
/** What a tap hands to an activity and how the updated balance goes back to
    the tag: `writeUpdatedCardToTag`, which EarnActivity.kt and
    BoggetDotsActivity.kt both carry in the same form. The physical tag is
    reduced to whether it has the Ndef technology, whether it is writable,
    and the message it holds; the outcome of connecting, writing and closing
    is a parameter. */
module TagIo {
  import opened Wrappers
  import opened Jvm
  import opened CardModel
  import opened Ndef

  /** A tag in the field. */
  class Tag {
    /** `Ndef.get(tag) != null`. */
    const hasNdef: bool
    /** `ndef.isWritable`. */
    const writable: bool
    /** The NDEF message stored on the tag. */
    var message: Message

    constructor (hasNdef: bool, writable: bool, message: Message)
      ensures this.hasNdef == hasNdef && this.writable == writable && this.message == message
    {
      this.hasNdef := hasNdef;
      this.writable := writable;
      this.message := message;
    }
  }

  /** Which of `connect`, `writeNdefMessage` and `close` throws, if any. */
  datatype IoFault = NoFault | ConnectFails | WriteFails | CloseFails

  /** The side effects of a transaction, in the order they are issued. */
  datatype Event =
    | DatabaseUpdate(key: string, card: Card)   // `database.child(card.boggetID).setValue(card)`
    | TagWrite(succeeded: bool)                 // the result of `writeUpdatedCardToTag`

  /** What a tap on the earn or purchase screen ends in (the toast shown). */
  datatype TapOutcome =
    | InvalidCardData                        // guard failed: "Invalid card data"
    | Unreadable(error: DecodeError)         // the `Card(...)` call threw
    | NoProductSelected                      // `selectedProduct` is null: nothing happens
    | InsufficientEDots(balance: Int32)      // "Insufficient eDots. Current balance: ..."
    | Updated(balance: Int32, written: bool) // new balance, and whether the tag write succeeded

  /** The guard of `processNfcTag`: a first message with at least five records. */
  predicate HasCardMessage(messages: seq<Message>) {
    |messages| > 0 && FIELD_COUNT <= |messages[0]|
  }

  /** The message `writeUpdatedCardToTag` builds, if it gets that far: the
      tag has Ndef, is writable, and building the records does not throw. */
  function PlannedWrite(hasNdef: bool, writable: bool, original: Message, language: seq<Byte>,
                        balance: Int32): (r: Option<Message>)
    ensures r.Some? <==> hasNdef && writable && FIELD_COUNT <= |original| && |language| < 64
    ensures r.Some? ==> r == WithBalance(original, language, balance)
  {
    if hasNdef && writable then WithBalance(original, language, balance) else None
  }

  /** What the tag holds afterwards: the planned message once
      `writeNdefMessage` has returned (even if `close` then throws), the
      old message otherwise. */
  function TagAfterWrite(current: Message, hasNdef: bool, writable: bool, original: Message,
                         language: seq<Byte>, balance: Int32, fault: IoFault): (r: Message)
    ensures r == current || Some(r) == PlannedWrite(hasNdef, writable, original, language, balance)
    ensures r != current ==>
      && |r| == |original|
      && forall i :: 0 <= i < |original| && i != BALANCE_INDEX ==> r[i] == original[i]
  {
    var plan := PlannedWrite(hasNdef, writable, original, language, balance);
    if plan.Some? && (fault == NoFault || fault == CloseFails) then plan.value else current
  }

  /** A write that reports success leaves on the tag a message that decodes
      to the updated card, when the language code is the two bytes the
      decoder assumes. */
  lemma SuccessfulWriteReadsBack(current: Message, hasNdef: bool, writable: bool, original: Message,
                                 language: seq<Byte>, balance: Int32)
    requires PlannedWrite(hasNdef, writable, original, language, balance).Some?
    requires DecodeCard(original).Success? && |language| == 2
    ensures DecodeCard(TagAfterWrite(current, hasNdef, writable, original, language, balance, NoFault))
         == Success(DecodeCard(original).value.(eDots := balance))
  {
    BalanceRoundTrip(original, language, balance);
  }

  /** `writeUpdatedCardToTag(tag, card, originalMessage)`: false without
      Ndef, on a read-only tag, or when anything on the write path throws;
      true only after `writeNdefMessage` and `close` have returned. Only
      record 4 of the written message differs from the original. */
  method WriteUpdatedCardToTag(tag: Tag, card: Card, original: Message, language: seq<Byte>,
                               fault: IoFault) returns (ok: bool)
    modifies tag
    ensures ok <==> PlannedWrite(tag.hasNdef, tag.writable, original, language, card.eDots).Some?
                    && fault == NoFault
    ensures tag.message == TagAfterWrite(old(tag.message), tag.hasNdef, tag.writable, original,
                                         language, card.eDots, fault)
  {
    if !tag.hasNdef {
      return false;
    }
    if !tag.writable {
      return false;
    }
    var updatedRecords := original;
    var record := TextRecord(language, BalanceBytes(card.eDots));
    if record.None? || |updatedRecords| <= BALANCE_INDEX {
      return false;
    }
    updatedRecords := updatedRecords[BALANCE_INDEX := record.value];
    if fault == ConnectFails || fault == WriteFails {
      return false;
    }
    tag.message := updatedRecords;
    if fault == CloseFails {
      return false;
    }
    ok := true;
  }
}

=== FILE: transactions.dfy ===
/** The balance rules of EarnActivity.kt and BoggetDotsActivity.kt, on the
    balance alone: earning always adds the price, spending subtracts it only
    when the balance covers it. Both use Kotlin `Int` arithmetic. */
module Transactions {
  import opened Wrappers
  import opened Jvm

  /** A catalogue entry; only the price takes part in a transaction. */
  datatype Product = Product(name: string, price: Int32, imageUrl: string)

  /** `card.edots += product.price`. */
  function Earn(balance: Int32, price: Int32): (r: Int32)
    ensures INT_MIN <= balance + price <= INT_MAX ==> r == balance + price
    ensures 0 <= balance && 0 <= price && balance + price <= INT_MAX ==> r >= balance
  {
    WrapInt(balance + price)
  }

  /** `if (card.edots >= product.price) card.edots -= product.price`;
      `None` is the "Insufficient eDots" branch, where the balance is left
      as it was. */
  function Spend(balance: Int32, price: Int32): (r: Option<Int32>)
    ensures r.Some? <==> balance >= price
    ensures r.Some? && 0 <= price ==> r.value == balance - price && 0 <= r.value <= balance
  {
    if balance >= price then Some(WrapInt(balance - price)) else None
  }

  /** Earning a then b leaves the same balance as b then a, overflow
      included. */
  lemma EarnCommutes(balance: Int32, a: Int32, b: Int32)
    ensures Earn(Earn(balance, a), b) == Earn(Earn(balance, b), a)
  {
    WrapIntAddLeft(balance + a, b);
    WrapIntAddLeft(balance + b, a);
    assert balance + a + b == balance + b + a;
  }

  /** Past the top of the `Int` range an earn wraps to a negative balance. */
  lemma EarnOverflowWraps()
    ensures Earn(INT_MAX, 1) == INT_MIN
  {
  }

  /** A purchase whose price equals the balance succeeds and leaves zero. */
  lemma SpendExactBalance(price: Int32)
    ensures Spend(price, price) == Some(0)
  {
  }

  /** Earning back the price of a purchase restores the balance. */
  lemma SpendThenEarnRestores(balance: Int32, price: Int32)
    requires Spend(balance, price).Some?
    ensures Earn(Spend(balance, price).value, price) == balance
  {
    WrapIntAddLeft(balance - price, price);
    assert balance - price + price == balance;
  }

  /** Spending what was just earned restores the balance when the earn did
      not overflow. */
  lemma EarnThenSpendRestores(balance: Int32, price: Int32)
    requires 0 <= balance && 0 <= price && balance + price <= INT_MAX
    ensures Spend(Earn(balance, price), price) == Some(balance)
  {
  }

  // ---------------------------------------------------------------------
  // A sequence of earns.

  function Sum(prices: seq<Int32>): int {
    if prices == [] then 0 else prices[0] + Sum(prices[1..])
  }

  /** Earning each price in turn. */
  function EarnAll(balance: Int32, prices: seq<Int32>): Int32
    decreases prices
  {
    if prices == [] then balance else EarnAll(Earn(balance, prices[0]), prices[1..])
  }

  /** A run of earns adds the total of the prices, wrapped once. */
  lemma {:induction false} EarnAllIsSum(balance: Int32, prices: seq<Int32>)
    ensures EarnAll(balance, prices) == WrapInt(balance + Sum(prices))
    decreases prices
  {
    if prices != [] {
      EarnAllIsSum(Earn(balance, prices[0]), prices[1..]);
      WrapIntAddLeft(balance + prices[0], Sum(prices[1..]));
    }
  }

  lemma {:induction false} SumRemove(s: seq<Int32>, j: nat)
    requires j < |s|
    ensures Sum(s) == s[j] + Sum(s[..j] + s[j + 1..])
  {
    if j > 0 {
      SumRemove(s[1..], j - 1);
      assert s[1..][..j - 1] + s[1..][j..] == (s[..j] + s[j + 1..])[1..];
    } else {
      assert s[..0] + s[1..] == s[1..];
    }
  }

  lemma {:induction false} SumPermutation(a: seq<Int32>, b: seq<Int32>)
    requires multiset(a) == multiset(b)
    ensures Sum(a) == Sum(b)
    decreases |a|
  {
    if a == [] {
      assert |b| == |multiset(b)| == 0;
    } else {
      assert a[0] in multiset(b);
      var j :| 0 <= j < |b| && b[j] == a[0];
      var rest := b[..j] + b[j + 1..];
      assert b == b[..j] + [b[j]] + b[j + 1..];
      assert multiset(b) == multiset(b[..j]) + multiset{b[j]} + multiset(b[j + 1..]);
      assert multiset(rest) == multiset(b[..j]) + multiset(b[j + 1..]);
      assert a == [a[0]] + a[1..];
      assert multiset(a) == multiset{a[0]} + multiset(a[1..]);
      assert multiset(a[1..]) == multiset(a) - multiset{a[0]};
      assert multiset(rest) == multiset(b) - multiset{b[j]};
      SumRemove(b, j);
      SumPermutation(a[1..], rest);
    }
  }

  /** The order in which a fixed list of prices is earned does not matter. */
  lemma EarnOrderIrrelevant(balance: Int32, prices: seq<Int32>, reordered: seq<Int32>)
    requires multiset(prices) == multiset(reordered)
    ensures EarnAll(balance, prices) == EarnAll(balance, reordered)
  {
    EarnAllIsSum(balance, prices);
    EarnAllIsSum(balance, reordered);
    SumPermutation(prices, reordered);
  }
}

=== FILE: wrappers.dfy ===
/** Optional values and results with an error, used for the source's nullable
    values and for the exceptions its conversions throw. */
module Wrappers {

  datatype Option<+T> = None | Some(value: T)

  datatype Result<+R, +E> = Success(value: R) | Failure(error: E) {

    predicate IsFailure() {
      Failure?
    }

    function PropagateFailure<U>(): Result<U, E>
      requires Failure?
    {
      Failure(error)
    }

    function Extract(): R
      requires Success?
    {
      value
    }
  }
}
